=== FILE: README.md ===
# OpenClientService session layer, modelled in Dafny

This project models the session layer of a .NET client for a trading API
that exchanges typed protobuf request/response messages over a single
broadcasting stream. It covers two parts of that layer:

- **Request correlation** (`SendAsync` with `SubscribeResponse`). One call
  owns a write-once completion slot (a `TaskCompletionSource`). The call
  subscribes to the stream, writes the request, and awaits the first
  response of the expected type before its deadline. It releases the
  subscription on every path.
- **Session sequences.** Logon is connect, then application auth, then
  account auth; it returns the first failure as a value. Token refresh is
  connect, then application auth, then the refresh exchange; it rethrows any
  failure. Logout and disposal are covered only as far as their ordering.

The reflection helpers that stamp the account id onto a request and read a
message's payload type are modelled as well.

Modules, in dependency order:

- `Wrappers` — `Option` and `Result`.
- `Errors` — the exceptions the layer raises or lets through.
- `Values` — the runtime values and property types reflection sees. The
  32- and 64-bit integer ranges and the unchecked `(int)long` narrowing are
  written out explicitly.
- `Messages` — a message as its runtime type name plus a map from property
  name to a property. A property has a setter flag, a declared type and a
  value. `Messages` also holds the `Library` record of runtime functions left
  uninterpreted.
- `PayloadExtension` — `SetField`, `ConvertValueToPropertyType` and
  `GetPayloadType`.
- `Protocol` — the message type names and the requests the service builds.
- `Transport` — the client, reduced to "absent, or present and possibly
  terminated". Every operation returns the trace it left on the transport:
  connects, subscriptions, written frames, releases, disposal. `Sent`
  extracts the written frames from a trace.
- `Correlation` — the completion slot, folded over the ordered events one
  call observes, and the outcome of the await.
- `ClientService` — `SendAsync`, `LogonAsync`, `RefreshTokenAsync`,
  `LogoutAsync` and `DisposeAsync`.

How time and concurrency are modelled:

- A call sees a finite, ordered list of inbound events:
  - `Heartbeat`
  - `Msg(m)`
  - `StreamError(e)`
  - `StreamCompleted`
  - `Timeout`
  - `Cancel`
- A list that ends without settling the call means the deadline passed
  first.
- Whether the write fails, whether connect fails, and the clock instant
  `now` (in seconds) are parameters.

## Model

| member | source | states |
|---|---|---|
| `Values.Truncate32` | src/OpenAPI.Net/Helpers/MessagePayloadTypeExtension.cs:67-68 | the unchecked `(int)long` cast yields an int congruent to the long modulo 2^32, and the long itself when it is in the int range |
| `PayloadExtension.ConvertValue` | src/OpenAPI.Net/Helpers/MessagePayloadTypeExtension.cs:55-74 | null converts to null; an assignable value is returned unchanged; an int widens to the same long; a long narrows to the congruent int, which is the long itself when it fits; every other value is handed to `Convert.ChangeType` and its outcome, success or failure, is returned as is |
| `PayloadExtension.WidenThenNarrow` | src/OpenAPI.Net/Helpers/MessagePayloadTypeExtension.cs:64-68 | int to long to int is the identity |
| `PayloadExtension.NarrowIsLow32Bits` | src/OpenAPI.Net/Helpers/MessagePayloadTypeExtension.cs:67-68 | narrowing a long gives exactly the int congruent to it modulo 2^32 (uniqueness of the truncation) |
| `PayloadExtension.SetField` | src/OpenAPI.Net/Helpers/MessagePayloadTypeExtension.cs:40-53 | an ambiguous name throws. A missing or read-only property leaves the message unchanged and reports false. A writable property is set exactly when its value converts to something the property admits: a failed conversion is rethrown, and a value the property does not admit throws a type mismatch. When set, it reports true, the property holds the converted value, and no other property, key or type name changes. Well-typedness is preserved |
| `PayloadExtension.SetFieldToCurrentValue` | src/OpenAPI.Net/Helpers/MessagePayloadTypeExtension.cs:44-49 | setting a writable field to a value that converts to what it already holds returns true and leaves the message unchanged |
| `PayloadExtension.SetFieldIdempotent` | src/OpenAPI.Net/Helpers/MessagePayloadTypeExtension.cs:40-53 | setting the same field to the same value twice gives the same result as setting it once |
| `PayloadExtension.ToUInt32` | src/OpenAPI.Net/Helpers/MessagePayloadTypeExtension.cs:29 | `Convert.ToUInt32` of the property value: null reads as 0; a number or enum member converts exactly when it is in the uint range and otherwise overflows; text is parsed by the library parser, whose outcome is returned as is |
| `PayloadExtension.GetPayloadType` | src/OpenAPI.Net/Helpers/MessagePayloadTypeExtension.cs:16-30 | an ambiguous PayloadType lookup becomes InvalidOperationException, a missing property is a null dereference, and otherwise the result is the property value as a uint |
| `PayloadExtension.PayloadTypeRoundTrip` | src/OpenAPI.Net/Helpers/MessagePayloadTypeExtension.cs:16-53 | after stamping an enum member with a non-negative value onto a writable PayloadType property, reading the payload type back yields the member's ordinal |
| `Messages.GetProperty` | src/OpenAPI.Net/Helpers/MessagePayloadTypeExtension.cs:22 | `Type.GetProperty`: a name several properties answer to is ambiguous; otherwise the property is found exactly when the message has one of that name, and it is that property |
| `Protocol.NewApplicationAuthReq` | src/OpenAPI.Net/Services/OpenClientService.cs:46-50 | the application-auth request has its own type name, carries the given client id and client secret, is well typed, and has no account-id property |
| `Protocol.NewAccountAuthReq` | src/OpenAPI.Net/Services/OpenClientService.cs:88-92 | the account-auth request carries the given account id in a writable long property and the given access token |
| `Protocol.NewRefreshTokenReq` | src/OpenAPI.Net/Services/OpenClientService.cs:53-56 | the refresh request has its own type name, carries the given refresh token, and has no account-id property |
| `Protocol.NewAccountLogoutReq` | src/OpenAPI.Net/Services/OpenClientService.cs:34-37 | the logout request has its payload type set to the `ProtoOaAccountLogoutReq` member and its account id unset |
| `Transport.Connect` | src/OpenAPI.Net/Services/OpenClientService.cs:81 | connecting writes no frame, and a null client throws a null dereference |
| `Correlation.TrySetResult` | src/OpenAPI.Net/Services/OpenClientService.cs:157 | only the first TrySet on the slot takes effect |
| `Correlation.TrySetException` | src/OpenAPI.Net/Services/OpenClientService.cs:162 | only the first TrySet on the slot takes effect |
| `Correlation.TrySetCanceled` | src/OpenAPI.Net/Services/OpenClientService.cs:167 | only the first TrySet on the slot takes effect |
| `Correlation.Observe` | src/OpenAPI.Net/Services/OpenClientService.cs:154-168 | a resolved slot never changes; heartbeats and messages of other types are no-ops; on a pending slot, a message of the expected type completes it with that message, a stream error faults it with that error, and stream completion, the deadline or cancellation cancel it |
| `Correlation.Fold` | src/OpenAPI.Net/Services/OpenClientService.cs:151-169 | over any event sequence, a resolved slot stays as it was |
| `Correlation.FirstSettler` | src/OpenAPI.Net/Services/OpenClientService.cs:154-168 | the first position whose event settles the call, with every earlier event non-settling |
| `Correlation.Verdict` | src/OpenAPI.Net/Services/OpenClientService.cs:125-147 | what the awaiting caller gets once an event has settled the call: the message is returned; a stream error is rethrown as it is; stream completion (`TaskCanceledException`) and the caller's token (`OperationCanceledException`) surface as cancellation exceptions, the deadline as a `TimeoutException` |
| `Correlation.Await` | src/OpenAPI.Net/Services/OpenClientService.cs:125-127 | a successful await returns a message of the expected type that was actually on the stream |
| `Correlation.NoiseNeverResolves` | src/OpenAPI.Net/Services/OpenClientService.cs:154-157 | with only heartbeats and messages of other types, the slot stays pending and the call ends at the deadline |
| `Correlation.HeartbeatIgnored` | src/OpenAPI.Net/Services/OpenClientService.cs:154 | a heartbeat, as an event or as a message, changes no slot whatever type the call expects |
| `Correlation.FirstSettlerDecides` | src/OpenAPI.Net/Services/OpenClientService.cs:154-168 | the first settling event decides both outcome and slot: a match completes with that message, a stream error faults with that error, and completion, deadline and cancellation cancel |
| `Correlation.LaterEventsIgnored` | src/OpenAPI.Net/Services/OpenClientService.cs:154-168 | once the call has settled, later messages, errors, completion, deadline or cancellation change neither the outcome nor the slot |
| `Correlation.ReleaseLosesNothing` | src/OpenAPI.Net/Services/OpenClientService.cs:121-129 | releasing the subscription once the call settles loses nothing: the events it would still have seen do not change the outcome or the slot |
| `Correlation.SlotAfterCall` | src/OpenAPI.Net/Services/OpenClientService.cs:131-147 | the slot after the catch blocks: whenever the call failed, the slot is no longer pending |
| `Correlation.CallResolvesOnce` | src/OpenAPI.Net/Services/OpenClientService.cs:125-146 | after the catch blocks, the slot is never left pending, it completes exactly when the call returns a response (and with that response), it faults with the error the call rethrows, and it is cancelled only when the call failed by deadline, cancellation or stream completion |
| `Correlation.BroadcastSharesResponse` | src/OpenAPI.Net/Services/OpenClientService.cs:151-158 | no correlation id: a call that has so far seen only non-settling events resolves exactly like one subscribing now, so two calls expecting the same type take the same message |
| `ClientService.StampAccountMeaning` | src/OpenAPI.Net/Services/OpenClientService.cs:118 | a request without a writable account-id property goes out unchanged; otherwise, for a property declared long or object, that property holds the session's account id, and for one declared int, the id truncated to 32 bits |
| `ClientService.StampAccount` | src/OpenAPI.Net/Services/OpenClientService.cs:118 | stamping the account id never changes the request's type name or its set of properties |
| `ClientService.Prepare` | src/OpenAPI.Net/Services/OpenClientService.cs:110-118 | pre-send checks in order: a null or terminated client fails with NotConnected, an unparsable type name fails, and a failing stamp fails; on success the frame carries the parsed payload type and the stamped request |
| `ClientService.SendAsync` | src/OpenAPI.Net/Services/OpenClientService.cs:106-149 | a failed pre-send check leaves an empty trace; otherwise the trace is subscribe, then the write (when it succeeds), then release, and exactly the prepared frame is sent; a failed write is rethrown; otherwise the outcome is the await's; a response has the expected type |
| `ClientService.AuthThen` | src/OpenAPI.Net/Services/OpenClientService.cs:95-96 | at most two frames go out, and the first is the application-auth request exactly as built. Success holds exactly when every step succeeds, and then both frames were sent and the second response is returned |
| `ClientService.AppAuthPrepared` | src/OpenAPI.Net/Services/OpenClientService.cs:110-118 | the application-auth request passes the pre-send checks unchanged: NotConnected or UnknownPayloadType when those checks fail, otherwise a frame holding the request as built |
| `ClientService.AuthThenFrames` | src/OpenAPI.Net/Services/OpenClientService.cs:95-96 | application auth goes out first; the second request goes out only once application auth has returned a response, and then carries the stamped second request |
| `ClientService.AuthThenRethrows` | src/OpenAPI.Net/Services/OpenClientService.cs:95-96 | the first failing step's exception propagates unchanged: a failed application auth, then a failure building the second request, then the second call's own outcome |
| `ClientService.Logon` | src/OpenAPI.Net/Services/OpenClientService.cs:77-104 | a null client, a failed connect or a missing token is returned before anything is sent. At most application auth and then account auth go out, and account auth only after an application-auth response. Application auth carries the client id and secret; account auth carries the account id and the stored access token. The result is null exactly under the listed success conditions, and then both frames were sent |
| `ClientService.AccountAuthStampIsNoOp` | src/OpenAPI.Net/Services/OpenClientService.cs:88-92 | stamping the account-auth request changes nothing, since it already holds the session's account id |
| `ClientService.LogonReturnsAppAuthFailure` | src/OpenAPI.Net/Services/OpenClientService.cs:95-103 | a failed application auth is the returned exception, and no account-auth frame is sent |
| `ClientService.LogonReturnsAccountAuthFailure` | src/OpenAPI.Net/Services/OpenClientService.cs:96-103 | after application auth succeeds, logon returns the account-auth failure, or null |
| `ClientService.RefreshToken` | src/OpenAPI.Net/Services/OpenClientService.cs:41-75 | a null client or a failed connect is rethrown before anything is sent. At most application auth and then refresh go out, and refresh only after an application-auth response. Application auth carries the client credentials and the refresh frame the stored refresh token. The call returns exactly under the listed success conditions, yielding no token when the response lacks an access token and otherwise the granted token |
| `ClientService.TokenFromResponse` | src/OpenAPI.Net/Services/OpenClientService.cs:59-67 | a failed refresh call is rethrown; a response without an access token gives no token; otherwise the token copies access token, refresh token and type, and expires `ExpiresIn` seconds after `now` |
| `ClientService.RefreshStampIsNoOp` | src/OpenAPI.Net/Services/OpenClientService.cs:53-57 | the refresh request has no account-id property, so stamping leaves it unchanged |
| `ClientService.RefreshRethrowsAppAuthFailure` | src/OpenAPI.Net/Services/OpenClientService.cs:51-74 | a failed application auth is rethrown as it is, and the refresh request is never written |
| `ClientService.RefreshRethrowsRefreshFailure` | src/OpenAPI.Net/Services/OpenClientService.cs:57-74 | after application auth succeeds, a failed refresh call is rethrown as it is |
| `ClientService.RefreshWithoutTokenFails` | src/OpenAPI.Net/Services/OpenClientService.cs:53-74 | with no stored token, the refresh fails with a null dereference after application auth, and only the application-auth frame is written |
| `ClientService.RefreshScenario` | OpenAPI.Net.Tests/OpenClientServiceTests.cs:14-24 | a concrete refresh: application auth answered after a heartbeat, then a response granting "abc"/"def" for 3600 seconds, yields a token with a non-empty access token that expires at `now + 3600` |
| `ClientService.Logout` | src/OpenAPI.Net/Services/OpenClientService.cs:32-39 | a null client or a failed write throws with an empty trace; otherwise exactly the logout frame is written, with no payload type passed |
| `ClientService.DisposeAsync` | src/OpenAPI.Net/Services/OpenClientService.cs:23-30 | as written: succeeds exactly when the client exists and the logout write succeeds; on failure nothing is disposed; on success the client ends terminated after sending only the logout frame |
| `ClientService.DisposeBestEffort` | src/OpenAPI.Net/Services/OpenClientService.cs:23-30 | corrected disposal: an existing client always ends terminated, a live one with disposal as the last action, and the logout frame is sent exactly when it could be written |
| `ClientService.DisposeAsyncThrowsOnAbsentClient` | src/OpenAPI.Net/Services/OpenClientService.cs:25-28 | with a null client, disposal throws a null dereference from the logout |
| `ClientService.DisposeAsyncLeaksClientOnLogoutFailure` | src/OpenAPI.Net/Services/OpenClientService.cs:25-28 | when the logout write fails, disposal throws and the live client is left undisposed |
| `ClientService.DisposeVersionsAgree` | src/OpenAPI.Net/Services/OpenClientService.cs:23-30 | when the logout write succeeds, the as-written and the corrected disposal leave the same trace |

## Left out

- Threads, Rx and timers: `Where(...).Subscribe(...)`, `WaitAsync` and the
  scheduling of concurrent calls are replaced by the ordered list of events
  one call observes. The subscription's fan-out to several simultaneous
  subscribers appears only through `Correlation.BroadcastSharesResponse`.
- The `OpenClient` transport is not part of this model. Its connect
  handshake, framing, TLS and how `IsTerminated` becomes true are
  abstracted: connect and write failures are parameters, and the client is
  "absent" or "present, possibly terminated".
- `Convert.ChangeType`, `Convert.ToUInt32(string)` and the case-insensitive
  `Enum.Parse<ProtoOAPayloadType>` are uninterpreted functions in the
  `Library` record. Their own failure modes are whatever those functions
  return.
- Reflection details are not modelled:
  - `PropertyInfo.SetValue` of null on a value-typed property;
  - the `ArgumentNullException` branch of `GetPayloadType`, which a literal
    property name cannot reach;
  - the exact .NET exception types.

  A value that does not fit the property type is reported as
  `PropertyTypeMismatch`.
- The timeout length is not used. The deadline is where a call's event list
  ends, or an explicit `Timeout` event. The service reads its own
  `timeoutSecond` constructor parameter, not `ConnectionInfo.TimeoutSecond`.
  The model's `ConnectionInfo.timeoutSecond` mirrors the record and is never
  read.
- `ClientService.SendAsync`: assumes a valid timeout. `WaitAsync` rejects a
  timeout below -1 ms or above 4294967294 ms with `ArgumentOutOfRangeException`.
  So with `timeoutSecond` below 0 or above 4294967, the request is written and
  then that exception is thrown. The general catch block rethrows it, logon
  returns it and refresh rethrows it. The model's await never yields this
  outcome.
- `DateTimeOffset` arithmetic is not modelled. The instant is an integer
  number of seconds, without the range limits of `DateTimeOffset.AddSeconds`.
- Logging calls are left out, as are the synchronous `Dispose` wrapper,
  `DependencyInjection.cs`, the `IOpenClientService` interface and
  `LogonInfo.cs`.
- The live-server test is not part of this model.
  `ClientService.RefreshScenario` states the property it checks for one
  concrete exchange.
- Behaviour some readers might expect but the code does not have, where the
  code is followed:
  - The code keeps no session-state value (connected, authenticated,
    faulted). Success is stated only through the returned values.
  - A refreshed token is returned to the caller; the code does not store it
    back into the connection info.
  - Logout and disposal are not best effort. This is recorded under Findings.
- `ClientService.SendAsync`: `SetField` changes the caller's request
  object in place. Once the pre-send checks pass, the request still carries
  the session's account id after the call returns or throws, even when the
  write failed. The model puts the
  stamped request only into the written frame. Within logon and refresh this
  is invisible: each request is built fresh for one call, and stamping it
  again changes nothing (`ClientService.AccountAuthStampIsNoOp`,
  `ClientService.RefreshStampIsNoOp`).
- `Transport.Connect`: states only that connecting sends no frame and that a
  null client fails. The `Connected` wire entry it records is not used by
  any other property.

## Findings

| source | as written | input that shows it | evidently intended | confidence | as-written member | corrected member |
|---|---|---|---|---|---|---|
| src/OpenAPI.Net/Services/OpenClientService.cs:23-30 | `DisposeAsync` awaits `LogoutAsync` outside any try, so a failed logout write escapes, and `client.Dispose()` is never reached | a live, non-terminated client whose logout write fails | disposal logs out as a best effort, then always releases a client that is not yet terminated | medium; not executed | `ClientService.DisposeAsync` (shown by `ClientService.DisposeAsyncLeaksClientOnLogoutFailure`) | `ClientService.DisposeBestEffort` |
| src/OpenAPI.Net/Services/OpenClientService.cs:25-38 | the null-tolerant `client?.IsTerminated` test is never reached for a null client: `LogoutAsync` dereferences the client first and throws | a service whose client reference is null | disposal is safe even when no client or session was ever set up | low; not executed | `ClientService.DisposeAsync` (shown by `ClientService.DisposeAsyncThrowsOnAbsentClient`) | `ClientService.DisposeBestEffort` |

=== FILE: client_service.dfy ===
/** The session service: typed request/response calls correlated over the
    inbound stream, and the logon, token-refresh, logout and disposal sequences
    built from them. Each operation takes the client as it is and returns its
    result with the trace it left on the transport; what the environment does
    during a call (a write failing, the inbound events) is a parameter. */
module ClientService {
  import opened Wrappers
  import opened Errors
  import opened Values
  import opened Messages
  import opened PayloadExtension
  import opened Protocol
  import opened Transport
  import opened Correlation

  datatype Mode = Live | Demo

  /** An access token; `expiresAt` is an instant in seconds. */
  datatype Token = Token(accessToken: string, refreshToken: string, expiresAt: int, tokenType: string)

  /** The session's credentials. The token is a reference that may be null.
      `timeoutSecond` mirrors the record; the service takes its timeout from
      its own constructor parameter instead, and the model reads neither. */
  datatype ConnectionInfo = ConnectionInfo(
    mode: Mode,
    clientId: string,
    clientSecret: string,
    accountId: int64,
    token: Option<Token>,
    timeoutSecond: int32)

  /** What happens around one SendAsync call: whether writing the request
      fails, and the events its subscription observes. */
  datatype CallWorld = CallWorld(writeFailure: Option<Error>, events: seq<Event>)

  /** What happens around a logon or refresh: the connect outcome and the two calls. */
  datatype SessionWorld = SessionWorld(connect: Option<Error>, appAuth: CallWorld, second: CallWorld)

  /** The request as it goes out: the session's account id set on it if it has
      a writable account-id property. */
  function StampAccount(lib: Library, info: ConnectionInfo, request: Message): (r: Result<Stamp, Error>)
    ensures r.Success? ==> r.value.message.typeName == request.typeName && r.value.message.fields.Keys == request.fields.Keys
  {
    SetField(lib, request, AccountIdField, Int64(info.accountId))
  }

  /** Stamping leaves a request without a writable account-id property as it
      is, and otherwise sets the property to the session's account id, converted
      to the property's type. */
  lemma StampAccountMeaning(lib: Library, info: ConnectionInfo, request: Message)
    ensures AccountIdField !in request.ambiguous
            && (AccountIdField !in request.fields || !request.fields[AccountIdField].writable) ==>
              StampAccount(lib, info, request) == Success(Stamp(false, request))
    ensures AccountIdField !in request.ambiguous && AccountIdField in request.fields
            && request.fields[AccountIdField].writable
            && request.fields[AccountIdField].declared in {Int64Type, ObjectType} ==>
              StampAccount(lib, info, request) == Success(Stamp(true, request.(fields := request.fields[AccountIdField :=
                     request.fields[AccountIdField].(value := Int64(info.accountId))])))
    ensures AccountIdField !in request.ambiguous && AccountIdField in request.fields
            && request.fields[AccountIdField].writable
            && request.fields[AccountIdField].declared == Int32Type ==>
              && StampAccount(lib, info, request).Success? && StampAccount(lib, info, request).value.applied
              && AccountIdField in StampAccount(lib, info, request).value.message.fields
              && StampAccount(lib, info, request).value.message.fields[AccountIdField].value == Int32(Truncate32(info.accountId))
  {
  }

  /** The checks SendAsync makes before touching the stream or the transport:
      a client that exists and is not terminated, a request type name the
      payload enumeration parses, and a successful account-id stamp. On success,
      the frame to write. */
  function Prepare(lib: Library, info: ConnectionInfo, client: Client, request: Message): (r: Result<Frame, Error>)
    ensures r.Success? <==>
              Usable(client) && lib.parsePayloadType(request.typeName).Some? && StampAccount(lib, info, request).Success?
    ensures !Usable(client) ==> r == Failure(NotConnected)
    ensures Usable(client) && lib.parsePayloadType(request.typeName).None? ==>
              r == Failure(UnknownPayloadType(request.typeName))
    ensures Usable(client) && lib.parsePayloadType(request.typeName).Some? && StampAccount(lib, info, request).Failure? ==>
              r == Failure(StampAccount(lib, info, request).error)
    ensures r.Success? ==>
              && r.value.payloadType == lib.parsePayloadType(request.typeName)
              && r.value.message == StampAccount(lib, info, request).value.message
              && r.value.message.typeName == request.typeName
  {
    if !Usable(client) then Failure(NotConnected)
    else
      match lib.parsePayloadType(request.typeName)
      case None => Failure(UnknownPayloadType(request.typeName))
      case Some(payloadType) =>
        match StampAccount(lib, info, request)
        case Failure(e) => Failure(e)
        case Success(stamp) => Success(Frame(stamp.message, Some(payloadType)))
  }

  /** SendAsync: after the checks, subscribe, write the request, await the
      first response of the expected type, and release the subscription on
      every path. A failed check touches neither the stream nor the transport. */
  function SendAsync(lib: Library, info: ConnectionInfo, client: Client, request: Message,
                     responseType: string, world: CallWorld): (r: Step<Result<Message, Error>>)
    ensures Prepare(lib, info, client, request).Failure? ==>
              r == Step(Failure(Prepare(lib, info, client, request).error), [])
    // the subscription is opened before the write and released after it, whether or not the write succeeds
    ensures Prepare(lib, info, client, request).Success? ==>
              r.trace ==
                [Subscribed(responseType)]
                + (if world.writeFailure.None? then [Written(Prepare(lib, info, client, request).value)] else [])
                + [Released]
    ensures Sent(r.trace) ==
              if Prepare(lib, info, client, request).Success? && world.writeFailure.None?
              then [Prepare(lib, info, client, request).value] else []
    ensures Prepare(lib, info, client, request).Success? && world.writeFailure.Some? ==>
              r.value == Failure(world.writeFailure.value)
    ensures Prepare(lib, info, client, request).Success? && world.writeFailure.None? ==>
              r.value == Await(world.events, responseType)
    ensures r.value.Success? ==> r.value.value.typeName == responseType
  {
    match Prepare(lib, info, client, request)
    case Failure(e) => Step(Failure(e), [])
    case Success(frame) =>
      match world.writeFailure
      case Some(e) =>
        var w := [Subscribed(responseType), Released];
        assert Sent(w) == [] by {
          assert w[1..] == [Released];
          assert Sent([Released]) == [];
        }
        Step(Failure(e), w)
      case None =>
        var w := [Subscribed(responseType), Written(frame), Released];
        assert Sent(w) == [frame] by {
          assert w[1..] == [Written(frame), Released];
          assert w[1..][1..] == [Released];
          assert Sent([Released]) == [];
        }
        Step(Await(world.events, responseType), w)
  }

  /** Application auth followed by a second request, the sequence LogonAsync
      and RefreshTokenAsync share once connected. The second request is built
      only after application auth has returned; building it may throw. */
  function AuthThen(lib: Library, info: ConnectionInfo, c: Client, appWorld: CallWorld,
                    second: Result<Message, Error>, secondResponse: string, secondWorld: CallWorld)
    : (r: Step<Result<Message, Error>>)
    ensures |Sent(r.trace)| <= 2
    // the application-auth request goes out first and as built, since it has no account-id property to stamp
    ensures |Sent(r.trace)| >= 1 ==> Sent(r.trace)[0].message == NewApplicationAuthReq(info.clientId, info.clientSecret)
    ensures r.value.Success? <==>
              && Usable(c)
              && lib.parsePayloadType(ApplicationAuthReq).Some?
              && appWorld.writeFailure.None?
              && Await(appWorld.events, ApplicationAuthRes).Success?
              && second.Success?
              && lib.parsePayloadType(second.value.typeName).Some?
              && StampAccount(lib, info, second.value).Success?
              && secondWorld.writeFailure.None?
              && Await(secondWorld.events, secondResponse).Success?
    ensures r.value.Success? ==> |Sent(r.trace)| == 2 && r.value == Await(secondWorld.events, secondResponse)
  {
    var appAuthReq := NewApplicationAuthReq(info.clientId, info.clientSecret);
    var app := SendAsync(lib, info, c, appAuthReq, ApplicationAuthRes, appWorld);
    AppAuthPrepared(lib, info, c);
    if app.value.Failure? || second.Failure? then
      Step(Failure(if app.value.Failure? then app.value.error else second.error), app.trace)
    else
      var next := SendAsync(lib, info, c, second.value, secondResponse, secondWorld);
      SentAppend(app.trace, next.trace);
      Step(next.value, app.trace + next.trace)
  }

  /** The application-auth request has no account-id property, so once the
      client and the type name pass the checks it goes out exactly as built. */
  lemma AppAuthPrepared(lib: Library, info: ConnectionInfo, c: Client)
    ensures var req := NewApplicationAuthReq(info.clientId, info.clientSecret);
            Prepare(lib, info, c, req) ==
              if !Usable(c) then Failure(NotConnected)
              else if lib.parsePayloadType(ApplicationAuthReq).None? then Failure(UnknownPayloadType(ApplicationAuthReq))
              else Success(Frame(req, lib.parsePayloadType(ApplicationAuthReq)))
  {
  }

  /** The frames of the two-call sequence: application auth first, and the
      second request, stamped, only once application auth has returned a
      response. */
  lemma AuthThenFrames(lib: Library, info: ConnectionInfo, c: Client, appWorld: CallWorld,
                       second: Result<Message, Error>, secondResponse: string, secondWorld: CallWorld)
    ensures var sent := Sent(AuthThen(lib, info, c, appWorld, second, secondResponse, secondWorld).trace);
            forall i :: 0 <= i < |sent| ==>
              sent[i].message.typeName ==
                (if i == 0 then ApplicationAuthReq else if second.Success? then second.value.typeName else "")
    ensures var sent := Sent(AuthThen(lib, info, c, appWorld, second, secondResponse, secondWorld).trace);
            |sent| == 2 ==>
              && Await(appWorld.events, ApplicationAuthRes).Success?
              && second.Success?
              && StampAccount(lib, info, second.value).Success?
              && sent[1].message == StampAccount(lib, info, second.value).value.message
  {
    var app := SendAsync(lib, info, c, NewApplicationAuthReq(info.clientId, info.clientSecret), ApplicationAuthRes, appWorld);
    if app.value.Success? && second.Success? {
      var next := SendAsync(lib, info, c, second.value, secondResponse, secondWorld);
      SentAppend(app.trace, next.trace);
    }
  }

  /** The first failing step's exception is the one that propagates out of
      the two-call sequence, unchanged. */
  lemma AuthThenRethrows(lib: Library, info: ConnectionInfo, c: Client, appWorld: CallWorld,
                         second: Result<Message, Error>, secondResponse: string, secondWorld: CallWorld)
    ensures var app := SendAsync(lib, info, c, NewApplicationAuthReq(info.clientId, info.clientSecret), ApplicationAuthRes, appWorld);
            var r := AuthThen(lib, info, c, appWorld, second, secondResponse, secondWorld);
            && (app.value.Failure? ==> r.value == Failure(app.value.error))
            && (app.value.Success? && second.Failure? ==> r.value == Failure(second.error))
            && (app.value.Success? && second.Success? ==>
                  r.value == SendAsync(lib, info, c, second.value, secondResponse, secondWorld).value)
  {
  }

  /** The conditions under which LogonAsync reports no error: a usable client
      that connects, a stored token, both request types known to the payload
      enumeration, both writes accepted, and a response of the expected type to
      each request before its deadline. */
  predicate LogonSucceeds(lib: Library, info: ConnectionInfo, client: Client, world: SessionWorld) {
    && Usable(client)
    && world.connect.None?
    && info.token.Some?
    && lib.parsePayloadType(ApplicationAuthReq).Some?
    && lib.parsePayloadType(AccountAuthReq).Some?
    && world.appAuth.writeFailure.None?
    && world.second.writeFailure.None?
    && Await(world.appAuth.events, ApplicationAuthRes).Success?
    && Await(world.second.events, AccountAuthRes).Success?
  }

  /** LogonAsync: connect, then application auth, then account auth, stopping at
      the first failure and returning its exception as a value; null when every
      step succeeds. Both requests are built before either is sent, so a missing
      token fails before anything is written. */
  function Logon(lib: Library, info: ConnectionInfo, client: Client, world: SessionWorld): (r: Step<Option<Error>>)
    ensures client.Absent? ==> r == Step(Some(NullReference), [])
    ensures client.Present? && world.connect.Some? ==> r.value == world.connect && Sent(r.trace) == []
    ensures client.Present? && world.connect.None? && info.token.None? ==>
              r.value == Some(NullReference) && Sent(r.trace) == []
    ensures |Sent(r.trace)| <= 2
    ensures forall i :: 0 <= i < |Sent(r.trace)| ==>
              Sent(r.trace)[i].message.typeName == (if i == 0 then ApplicationAuthReq else AccountAuthReq)
    // the account-auth request goes out only once application auth has succeeded
    ensures |Sent(r.trace)| == 2 ==> Await(world.appAuth.events, ApplicationAuthRes).Success?
    // application auth carries the client credentials, account auth the account id and the stored access token
    ensures |Sent(r.trace)| >= 1 ==>
              && StringOf(Sent(r.trace)[0].message, "ClientId") == info.clientId
              && StringOf(Sent(r.trace)[0].message, "ClientSecret") == info.clientSecret
    ensures |Sent(r.trace)| == 2 ==>
              && info.token.Some?
              && StringOf(Sent(r.trace)[1].message, "AccessToken") == info.token.value.accessToken
              && Int64Of(Sent(r.trace)[1].message, AccountIdField) == info.accountId
    ensures r.value.None? <==> LogonSucceeds(lib, info, client, world)
    ensures r.value.None? ==> |Sent(r.trace)| == 2
  {
    var connected := Connect(client, world.connect);
    if connected.value.Some? then Step(connected.value, connected.trace)
    else if info.token.None? then Step(Some(NullReference), connected.trace)
    else
      var accAuthReq := NewAccountAuthReq(info.accountId, info.token.value.accessToken);
      AccountAuthStampIsNoOp(lib, info, info.token.value.accessToken);
      var auth := AuthThen(lib, info, client, world.appAuth, Success(accAuthReq), AccountAuthRes, world.second);
      AuthThenFrames(lib, info, client, world.appAuth, Success(accAuthReq), AccountAuthRes, world.second);
      SentAppend(connected.trace, auth.trace);
      assert Sent(connected.trace + auth.trace) == Sent(auth.trace);
      Step(if auth.value.Failure? then Some(auth.value.error) else None, connected.trace + auth.trace)
  }

  /** The account-auth request already carries the session's account id, so
      stamping it changes nothing. */
  lemma AccountAuthStampIsNoOp(lib: Library, info: ConnectionInfo, accessToken: string)
    ensures StampAccount(lib, info, NewAccountAuthReq(info.accountId, accessToken))
            == Success(Stamp(true, NewAccountAuthReq(info.accountId, accessToken)))
  {
    SetFieldToCurrentValue(lib, NewAccountAuthReq(info.accountId, accessToken), AccountIdField, Int64(info.accountId));
  }

  /** The conditions under which RefreshTokenAsync returns rather than throws. */
  predicate RefreshSucceeds(lib: Library, info: ConnectionInfo, client: Client, world: SessionWorld) {
    && Usable(client)
    && world.connect.None?
    && info.token.Some?
    && lib.parsePayloadType(ApplicationAuthReq).Some?
    && lib.parsePayloadType(RefreshTokenReq).Some?
    && world.appAuth.writeFailure.None?
    && world.second.writeFailure.None?
    && Await(world.appAuth.events, ApplicationAuthRes).Success?
    && Await(world.second.events, RefreshTokenRes).Success?
  }

  /** The token a refresh response grants, read at instant `now` (seconds). */
  function GrantedToken(res: Message, now: int): Token {
    Token(StringOf(res, "AccessToken"), StringOf(res, "RefreshToken"), now + Int64Of(res, "ExpiresIn"), StringOf(res, "TokenType"))
  }

  /** RefreshTokenAsync: connect, application auth, then exchange the stored
      refresh token; no token when the response carries no access token; every
      failure rethrown. */
  function RefreshToken(lib: Library, info: ConnectionInfo, client: Client, now: int, world: SessionWorld)
    : (r: Step<Result<Option<Token>, Error>>)
    ensures client.Absent? ==> r == Step(Failure(NullReference), [])
    ensures client.Present? && world.connect.Some? ==>
              r.value == Failure(world.connect.value) && Sent(r.trace) == []
    ensures |Sent(r.trace)| <= 2
    ensures forall i :: 0 <= i < |Sent(r.trace)| ==>
              Sent(r.trace)[i].message.typeName == (if i == 0 then ApplicationAuthReq else RefreshTokenReq)
    // the refresh request goes out only after application auth, carrying the stored refresh token
    ensures |Sent(r.trace)| == 2 ==>
              && Await(world.appAuth.events, ApplicationAuthRes).Success?
              && info.token.Some?
              && StringOf(Sent(r.trace)[1].message, "RefreshToken") == info.token.value.refreshToken
    ensures |Sent(r.trace)| >= 1 ==>
              && StringOf(Sent(r.trace)[0].message, "ClientId") == info.clientId
              && StringOf(Sent(r.trace)[0].message, "ClientSecret") == info.clientSecret
    ensures r.value.Success? <==> RefreshSucceeds(lib, info, client, world)
    ensures r.value.Success? ==>
              var res := Await(world.second.events, RefreshTokenRes).value;
              && |Sent(r.trace)| == 2
              && (r.value.value.None? <==> !Has(res, "AccessToken"))
              && (r.value.value.Some? ==> r.value.value.value == GrantedToken(res, now))
  {
    var connected := Connect(client, world.connect);
    if connected.value.Some? then Step(Failure(connected.value.value), connected.trace)
    else
      var refreshReq := if info.token.Some? then Success(NewRefreshTokenReq(info.token.value.refreshToken))
                        else Failure(NullReference);
      RefreshStampIsNoOp(lib, info, if info.token.Some? then info.token.value.refreshToken else "");
      var auth := AuthThen(lib, info, client, world.appAuth, refreshReq, RefreshTokenRes, world.second);
      AuthThenFrames(lib, info, client, world.appAuth, refreshReq, RefreshTokenRes, world.second);
      SentAppend(connected.trace, auth.trace);
      assert Sent(connected.trace + auth.trace) == Sent(auth.trace);
      Step(TokenFromResponse(auth.value, now), connected.trace + auth.trace)
  }

  /** What RefreshTokenAsync makes of the refresh call's outcome: a failure is
      rethrown, a response without an access token yields no token, and any
      other response the token it grants. */
  function TokenFromResponse(res: Result<Message, Error>, now: int): (r: Result<Option<Token>, Error>)
    ensures r.Failure? <==> res.Failure?
    ensures res.Failure? ==> r.error == res.error
    ensures res.Success? ==> (r.value.None? <==> !Has(res.value, "AccessToken"))
    ensures res.Success? && r.value.Some? ==> r.value.value == GrantedToken(res.value, now)
  {
    match res
    case Failure(e) => Failure(e)
    case Success(m) => if !Has(m, "AccessToken") then Success(None) else Success(Some(GrantedToken(m, now)))
  }

  /** The refresh request has no account-id property, so stamping leaves it as it is. */
  lemma RefreshStampIsNoOp(lib: Library, info: ConnectionInfo, refreshToken: string)
    ensures StampAccount(lib, info, NewRefreshTokenReq(refreshToken)) == Success(Stamp(false, NewRefreshTokenReq(refreshToken)))
  {
  }

  /** RefreshTokenAsync rethrows a failed application auth as it is, before
      the refresh request is built. */
  lemma RefreshRethrowsAppAuthFailure(lib: Library, info: ConnectionInfo, client: Client, now: int, world: SessionWorld)
    requires client.Present? && world.connect.None?
    requires SendAsync(lib, info, client, NewApplicationAuthReq(info.clientId, info.clientSecret),
                       ApplicationAuthRes, world.appAuth).value.Failure?
    ensures RefreshToken(lib, info, client, now, world).value ==
              Failure(SendAsync(lib, info, client, NewApplicationAuthReq(info.clientId, info.clientSecret),
                                ApplicationAuthRes, world.appAuth).value.error)
    ensures |Sent(RefreshToken(lib, info, client, now, world).trace)| < 2
  {
  }

  /** After application auth succeeds, a failed refresh call is rethrown as it is. */
  lemma RefreshRethrowsRefreshFailure(lib: Library, info: ConnectionInfo, client: Client, now: int, world: SessionWorld)
    requires client.Present? && world.connect.None? && info.token.Some?
    requires SendAsync(lib, info, client, NewApplicationAuthReq(info.clientId, info.clientSecret),
                       ApplicationAuthRes, world.appAuth).value.Success?
    requires SendAsync(lib, info, client, NewRefreshTokenReq(info.token.value.refreshToken),
                       RefreshTokenRes, world.second).value.Failure?
    ensures RefreshToken(lib, info, client, now, world).value ==
              Failure(SendAsync(lib, info, client, NewRefreshTokenReq(info.token.value.refreshToken),
                                RefreshTokenRes, world.second).value.error)
  {
  }

  /** A missing stored token fails the refresh with a null dereference once
      application auth has succeeded, and the refresh request is never written. */
  lemma RefreshWithoutTokenFails(lib: Library, info: ConnectionInfo, client: Client, now: int, world: SessionWorld)
    requires client.Present? && world.connect.None? && info.token.None?
    requires SendAsync(lib, info, client, NewApplicationAuthReq(info.clientId, info.clientSecret),
                       ApplicationAuthRes, world.appAuth).value.Success?
    ensures RefreshToken(lib, info, client, now, world).value == Failure(NullReference)
    ensures |Sent(RefreshToken(lib, info, client, now, world).trace)| == 1
  {
  }

  /** The first failing step decides what LogonAsync returns: a failed
      application auth is returned as is, and the account-auth request is then
      never written. */
  lemma LogonReturnsAppAuthFailure(lib: Library, info: ConnectionInfo, client: Client, world: SessionWorld)
    requires client.Present? && world.connect.None? && info.token.Some?
    requires SendAsync(lib, info, client, NewApplicationAuthReq(info.clientId, info.clientSecret),
                       ApplicationAuthRes, world.appAuth).value.Failure?
    ensures Logon(lib, info, client, world).value ==
              Some(SendAsync(lib, info, client, NewApplicationAuthReq(info.clientId, info.clientSecret),
                             ApplicationAuthRes, world.appAuth).value.error)
    ensures forall f :: f in Sent(Logon(lib, info, client, world).trace) ==> f.message.typeName != AccountAuthReq
  {
  }

  /** A failed account auth is returned as is, after both requests were written. */
  lemma LogonReturnsAccountAuthFailure(lib: Library, info: ConnectionInfo, client: Client, world: SessionWorld)
    requires client.Present? && world.connect.None? && info.token.Some?
    requires SendAsync(lib, info, client, NewApplicationAuthReq(info.clientId, info.clientSecret),
                       ApplicationAuthRes, world.appAuth).value.Success?
    ensures var acc := SendAsync(lib, info, client, NewAccountAuthReq(info.accountId, info.token.value.accessToken),
                                 AccountAuthRes, world.second);
            Logon(lib, info, client, world).value == (if acc.value.Failure? then Some(acc.value.error) else None)
  {
  }

  /** The scenario of a refresh for account 12345: application auth answered
      after a heartbeat, then a refresh response granting "abc"/"def" for 3600
      seconds; the new token expires 3600 seconds after `now`. */
  lemma RefreshScenario(lib: Library, now: int)
    requires lib.parsePayloadType(ApplicationAuthReq).Some? && lib.parsePayloadType(RefreshTokenReq).Some?
    ensures var info := ConnectionInfo(Demo, "client", "secret", 12345, Some(Token("old", "refresh", 0, "bearer")), 10);
            var appRes := Message(ApplicationAuthRes, map[], {});
            var res := Message(RefreshTokenRes,
                               map["AccessToken" := Property(true, StringType, Str("abc")),
                                   "RefreshToken" := Property(true, StringType, Str("def")),
                                   "ExpiresIn" := Property(true, Int64Type, Int64(3600)),
                                   "TokenType" := Property(true, StringType, Str("bearer"))],
                               {});
            var world := SessionWorld(None, CallWorld(None, [Heartbeat, Msg(appRes)]), CallWorld(None, [Msg(res)]));
            RefreshToken(lib, info, Present(false), now, world).value == Success(Some(Token("abc", "def", now + 3600, "bearer")))
  {
    var appRes := Message(ApplicationAuthRes, map[], {});
    var res := Message(RefreshTokenRes,
                       map["AccessToken" := Property(true, StringType, Str("abc")),
                           "RefreshToken" := Property(true, StringType, Str("def")),
                           "ExpiresIn" := Property(true, Int64Type, Int64(3600)),
                           "TokenType" := Property(true, StringType, Str("bearer"))],
                       {});
    var appEvents := [Heartbeat, Msg(appRes)];
    assert appEvents[1..] == [Msg(appRes)];
    assert Await(appEvents, ApplicationAuthRes) == Success(appRes);
    assert Await([Msg(res)], RefreshTokenRes) == Success(res);
    assert Has(res, "AccessToken");
    assert GrantedToken(res, now) == Token("abc", "def", now + 3600, "bearer");
  }

  /** The frame LogoutAsync writes: the logout request with its payload type
      set, written without an explicit payload type. */
  function LogoutFrame(lib: Library): Frame {
    Frame(NewAccountLogoutReq(lib), None)
  }

  /** LogoutAsync: write a logout request without waiting for an answer; a null
      client or a failed write throws. */
  function Logout(lib: Library, client: Client, writeFailure: Option<Error>): (r: Step<Result<(), Error>>)
    ensures client.Absent? ==> r == Step(Failure(NullReference), [])
    ensures client.Present? && writeFailure.Some? ==> r == Step(Failure(writeFailure.value), [])
    ensures r.value.Success? <==> client.Present? && writeFailure.None?
    ensures r.value.Success? ==> r.trace == [Written(LogoutFrame(lib))] && Sent(r.trace) == [LogoutFrame(lib)]
  {
    if client.Absent? then Step(Failure(NullReference), [])
    else if writeFailure.Some? then Step(Failure(writeFailure.value), [])
    else Step(Success(()), [Written(LogoutFrame(lib))])
  }

  /** Whether a client is terminated after an operation left `trace` on it. */
  predicate TerminatedAfter(client: Client, trace: seq<Wire>) {
    client.Present? && (client.terminated || Disposed in trace)
  }

  /** DisposeAsync as written: log out, then dispose the client if it is not
      terminated. The logout is awaited outside any try, so when it throws the
      exception escapes and the client is never disposed. */
  function DisposeAsync(lib: Library, client: Client, logoutWriteFailure: Option<Error>): (r: Step<Result<(), Error>>)
    ensures r.value.Success? <==> client.Present? && logoutWriteFailure.None?
    ensures r.value.Failure? ==> r.trace == []
    ensures r.value.Success? ==> TerminatedAfter(client, r.trace)
    ensures r.value.Success? ==> Sent(r.trace) == [LogoutFrame(lib)]
  {
    var logout := Logout(lib, client, logoutWriteFailure);
    if logout.value.Failure? then logout
    else if !client.terminated then
      var w := logout.trace + [Disposed];
      SentAppend(logout.trace, [Disposed]);
      Step(Success(()), w)
    else logout
  }

  /** A best-effort disposal: a logout whose failure is swallowed, then
      disposing the client if it is not yet terminated. */
  function DisposeBestEffort(lib: Library, client: Client, logoutWriteFailure: Option<Error>): (r: seq<Wire>)
    ensures client.Present? ==> TerminatedAfter(client, r)
    ensures Usable(client) ==> |r| > 0 && r[|r| - 1] == Disposed
    ensures Sent(r) == if client.Present? && logoutWriteFailure.None? then [LogoutFrame(lib)] else []
  {
    var logout := Logout(lib, client, logoutWriteFailure);
    if Usable(client) then
      SentAppend(logout.trace, [Disposed]);
      logout.trace + [Disposed]
    else logout.trace
  }

  /** DisposeAsync throws on a null client although its own disposal step is
      written to tolerate one. */
  lemma DisposeAsyncThrowsOnAbsentClient(lib: Library, e: Option<Error>)
    ensures DisposeAsync(lib, Absent, e) == Step(Failure(NullReference), [])
  {
  }

  /** DisposeAsync leaves a live client undisposed when the logout write fails. */
  lemma DisposeAsyncLeaksClientOnLogoutFailure(lib: Library, e: Error)
    ensures DisposeAsync(lib, Present(false), Some(e)) == Step(Failure(e), [])
    ensures !TerminatedAfter(Present(false), DisposeAsync(lib, Present(false), Some(e)).trace)
  {
  }

  /** When the logout write succeeds, the written disposal and the best-effort
      one leave the same trace. */
  lemma DisposeVersionsAgree(lib: Library, client: Client)
    requires client.Present?
    ensures DisposeAsync(lib, client, None) == Step(Success(()), DisposeBestEffort(lib, client, None))
  {
  }
}

=== FILE: correlation.dfy ===
/** Correlation of one pending call with the inbound broadcast stream.

    A call owns a write-once completion slot. Its subscription drops heartbeats,
    completes the slot with the first message of the expected response type,
    faults it on a stream error and cancels it when the stream completes; when
    the wait ends by deadline or by the caller's cancellation, the call's catch
    block cancels the slot. Concurrency is serialised: one call observes an
    ordered sequence of events, and an event list that ends without settling the
    call stands for the deadline passing. */
module Correlation {
  import opened Wrappers
  import opened Errors
  import opened Messages
  import opened Protocol

  datatype Event =
    | Heartbeat
    | Msg(message: Message)
    | StreamError(error: Error)
    | StreamCompleted
    /** The per-call deadline passes. */
    | Timeout
    /** The caller's cancellation token fires. */
    | Cancel

  /** The completion slot (a TaskCompletionSource). */
  datatype Slot = Pending | Completed(response: Message) | Faulted(error: Error) | Canceled

  /** TrySetResult, TrySetException, TrySetCanceled: only the first of them to
      reach a pending slot has any effect. */
  function TrySetResult(s: Slot, m: Message): (r: Slot)
    ensures s.Pending? ==> r == Completed(m)
    ensures !s.Pending? ==> r == s
  {
    if s.Pending? then Completed(m) else s
  }

  function TrySetException(s: Slot, e: Error): (r: Slot)
    ensures s.Pending? ==> r == Faulted(e)
    ensures !s.Pending? ==> r == s
  {
    if s.Pending? then Faulted(e) else s
  }

  function TrySetCanceled(s: Slot): (r: Slot)
    ensures s.Pending? ==> r == Canceled
    ensures !s.Pending? ==> r == s
  {
    if s.Pending? then Canceled else s
  }

  /** Keep-alive traffic: the heartbeat event, or any message of the heartbeat type. */
  predicate IsHeartbeat(ev: Event) {
    ev.Heartbeat? || (ev.Msg? && ev.message.typeName == HeartbeatEvent)
  }

  /** The events that end the wait of a call expecting `expected`: anything but
      keep-alive traffic and messages of another type. */
  predicate Settles(ev: Event, expected: string) {
    !IsHeartbeat(ev) && (ev.Msg? ==> ev.message.typeName == expected)
  }

  /** One event's effect on the slot: the subscription's filter and its three
      callbacks, plus the catch blocks' TrySetCanceled when the wait ends by
      deadline or cancellation. */
  function Observe(s: Slot, ev: Event, expected: string): (r: Slot)
    ensures !s.Pending? ==> r == s
    ensures !Settles(ev, expected) ==> r == s
    ensures s.Pending? && Settles(ev, expected) ==> !r.Pending?
    ensures s.Pending? && ev.Msg? && Settles(ev, expected) ==> r == Completed(ev.message)
    ensures s.Pending? && ev.StreamError? ==> r == Faulted(ev.error)
    ensures s.Pending? && (ev.StreamCompleted? || ev.Timeout? || ev.Cancel?) ==> r == Canceled
    ensures r.Completed? && s.Pending? ==> ev == Msg(r.response) && r.response.typeName == expected
  {
    if IsHeartbeat(ev) then s
    else
      match ev
      case Msg(m) => if m.typeName == expected then TrySetResult(s, m) else s
      case StreamError(e) => TrySetException(s, e)
      case StreamCompleted => TrySetCanceled(s)
      case Timeout => TrySetCanceled(s)
      case Cancel => TrySetCanceled(s)
      case Heartbeat => s
  }

  /** The slot after the subscription has seen `evs`. Once resolved it never
      changes again. */
  function Fold(s: Slot, evs: seq<Event>, expected: string): (r: Slot)
    ensures !s.Pending? ==> r == s
    decreases |evs|
  {
    if |evs| == 0 then s else Fold(Observe(s, evs[0], expected), evs[1..], expected)
  }

  /** The position of the first event that settles the call, or |evs| if none does. */
  function FirstSettler(evs: seq<Event>, expected: string): (k: nat)
    ensures k <= |evs|
    ensures forall j :: 0 <= j < k ==> !Settles(evs[j], expected)
    ensures k < |evs| ==> Settles(evs[k], expected)
    decreases |evs|
  {
    if |evs| == 0 then 0
    else if Settles(evs[0], expected) then 0
    else 1 + FirstSettler(evs[1..], expected)
  }

  /** The first settling position is the unique one with no settler before it. */
  lemma FirstSettlerIs(evs: seq<Event>, expected: string, k: nat)
    requires k <= |evs|
    requires forall j :: 0 <= j < k ==> !Settles(evs[j], expected)
    requires k < |evs| ==> Settles(evs[k], expected)
    ensures FirstSettler(evs, expected) == k
  {
  }

  /** What awaiting the call yields once `ev` has settled it: the message, the
      stream's error rethrown, a TimeoutException for the deadline, and a
      cancellation exception for stream completion or the caller's token. */
  function Verdict(ev: Event): (r: Result<Message, Error>)
    ensures r.Success? <==> ev.Msg?
    ensures ev.Msg? ==> r.value == ev.message
    ensures ev.StreamError? ==> r == Failure(ev.error)
    ensures r.Failure? && !ev.StreamError? ==> r.error.CancelsSlot()
    ensures ev.StreamCompleted? ==> r == Failure(ResponseCanceled)
    ensures ev.Timeout? ==> r == Failure(RequestTimeout)
    ensures ev.Cancel? ==> r == Failure(RequestCanceled)
  {
    match ev
    case Msg(m) => Success(m)
    case StreamError(e) => Failure(e)
    case StreamCompleted => Failure(ResponseCanceled)
    case Timeout => Failure(RequestTimeout)
    case Cancel => Failure(RequestCanceled)
    // unreachable from Await: a heartbeat never settles a call
    case Heartbeat => Failure(RequestTimeout)
  }

  /** The outcome of `await responseReceiving.Task.WaitAsync(timeout, token)`:
      the first settling event decides it; with none, the deadline does. */
  function Await(evs: seq<Event>, expected: string): (r: Result<Message, Error>)
    ensures r.Success? ==> r.value.typeName == expected && Msg(r.value) in evs
    decreases |evs|
  {
    if |evs| == 0 then Failure(RequestTimeout)
    else if Settles(evs[0], expected) then Verdict(evs[0])
    else Await(evs[1..], expected)
  }

  lemma {:induction false} FoldAtFirstSettler(evs: seq<Event>, expected: string)
    ensures var k := FirstSettler(evs, expected);
            Fold(Pending, evs, expected) == if k < |evs| then Observe(Pending, evs[k], expected) else Pending
    decreases |evs|
  {
    if |evs| > 0 && !Settles(evs[0], expected) {
      FoldAtFirstSettler(evs[1..], expected);
    }
  }

  lemma {:induction false} AwaitAtFirstSettler(evs: seq<Event>, expected: string)
    ensures var k := FirstSettler(evs, expected);
            Await(evs, expected) == if k < |evs| then Verdict(evs[k]) else Failure(RequestTimeout)
    decreases |evs|
  {
    if |evs| > 0 && !Settles(evs[0], expected) {
      AwaitAtFirstSettler(evs[1..], expected);
    }
  }

  /** Heartbeats and messages of other types never resolve the call: with only
      such events the slot stays pending and the wait ends at the deadline. */
  lemma {:induction false} NoiseNeverResolves(evs: seq<Event>, expected: string)
    requires forall j :: 0 <= j < |evs| ==> IsHeartbeat(evs[j]) || (evs[j].Msg? && evs[j].message.typeName != expected)
    ensures Fold(Pending, evs, expected) == Pending
    ensures Await(evs, expected) == Failure(RequestTimeout)
  {
    FirstSettlerIs(evs, expected, |evs|);
    FoldAtFirstSettler(evs, expected);
    AwaitAtFirstSettler(evs, expected);
  }

  /** A heartbeat never resolves a call, whatever response type it expects. */
  lemma HeartbeatIgnored(s: Slot, m: Message, expected: string)
    requires m.typeName == HeartbeatEvent
    ensures Observe(s, Msg(m), expected) == s
    ensures Observe(s, Heartbeat, expected) == s
  {
  }

  /** The event at the first settling position decides both the awaited outcome
      and the slot: the first matching message completes the call with that
      message; a stream error faults it with that error; stream completion, the
      deadline and the caller's cancellation cancel it. */
  lemma {:induction false} FirstSettlerDecides(evs: seq<Event>, expected: string, k: nat)
    requires k < |evs| && Settles(evs[k], expected)
    requires forall j :: 0 <= j < k ==> !Settles(evs[j], expected)
    ensures evs[k].Msg? ==>
              Await(evs, expected) == Success(evs[k].message) && Fold(Pending, evs, expected) == Completed(evs[k].message)
    ensures evs[k].StreamError? ==>
              Await(evs, expected) == Failure(evs[k].error) && Fold(Pending, evs, expected) == Faulted(evs[k].error)
    ensures evs[k].StreamCompleted? ==>
              Await(evs, expected) == Failure(ResponseCanceled) && Fold(Pending, evs, expected) == Canceled
    ensures evs[k].Timeout? ==>
              Await(evs, expected) == Failure(RequestTimeout) && Fold(Pending, evs, expected) == Canceled
    ensures evs[k].Cancel? ==>
              Await(evs, expected) == Failure(RequestCanceled) && Fold(Pending, evs, expected) == Canceled
  {
    FirstSettlerIs(evs, expected, k);
    FoldAtFirstSettler(evs, expected);
    AwaitAtFirstSettler(evs, expected);
  }

  lemma {:induction false} FoldAppend(s: Slot, a: seq<Event>, b: seq<Event>, expected: string)
    ensures Fold(s, a + b, expected) == Fold(Fold(s, a, expected), b, expected)
    decreases |a|
  {
    if |a| == 0 {
      assert a + b == b;
    } else {
      assert (a + b)[1..] == a[1..] + b;
      FoldAppend(Observe(s, a[0], expected), a[1..], b, expected);
    }
  }

  /** Once an event has settled the call, later events (further messages,
      errors, completion, deadline, cancellation) change neither the outcome nor
      the slot. */
  lemma LaterEventsIgnored(evs: seq<Event>, more: seq<Event>, expected: string)
    requires FirstSettler(evs, expected) < |evs|
    ensures Await(evs + more, expected) == Await(evs, expected)
    ensures Fold(Pending, evs + more, expected) == Fold(Pending, evs, expected)
  {
    var k := FirstSettler(evs, expected);
    var all := evs + more;
    assert forall j :: 0 <= j <= k ==> all[j] == evs[j];
    FirstSettlerIs(all, expected, k);
    FoldAtFirstSettler(evs, expected);
    FoldAtFirstSettler(all, expected);
    AwaitAtFirstSettler(evs, expected);
    AwaitAtFirstSettler(all, expected);
  }

  /** The events the subscription sees before the call releases it: up to and
      including the settling one. */
  function Delivered(evs: seq<Event>, expected: string): (d: seq<Event>)
    ensures d <= evs
    ensures forall j :: 0 <= j < |d| - 1 ==> !Settles(d[j], expected)
    ensures |d| < |evs| ==> |d| > 0 && Settles(d[|d| - 1], expected)
  {
    var k := FirstSettler(evs, expected);
    if k < |evs| then evs[..k + 1] else evs
  }

  /** Releasing the subscription once the call settles loses nothing: the
      events it no longer sees would not have changed the outcome. */
  lemma ReleaseLosesNothing(evs: seq<Event>, expected: string)
    ensures Await(Delivered(evs, expected), expected) == Await(evs, expected)
    ensures Fold(Pending, Delivered(evs, expected), expected) == Fold(Pending, evs, expected)
  {
    var k := FirstSettler(evs, expected);
    if k < |evs| {
      var d := evs[..k + 1];
      assert evs == d + evs[k + 1..];
      FirstSettlerIs(d, expected, k);
      LaterEventsIgnored(d, evs[k + 1..], expected);
    }
  }

  /** The slot when SendAsync returns: what the subscription did, then the
      catch blocks' TrySetCanceled if the await failed. */
  function SlotAfterCall(evs: seq<Event>, expected: string): (r: Slot)
    ensures Await(evs, expected).Failure? ==> !r.Pending?
  {
    var s := Fold(Pending, Delivered(evs, expected), expected);
    if Await(evs, expected).Failure? then TrySetCanceled(s) else s
  }

  /** Every call resolves its slot exactly once, and the slot agrees with what
      the caller sees: completed with the returned response, faulted with the
      rethrown stream error, or cancelled when the call failed by deadline,
      cancellation or stream completion. */
  lemma CallResolvesOnce(evs: seq<Event>, expected: string)
    ensures !SlotAfterCall(evs, expected).Pending?
    ensures Await(evs, expected).Success? <==> SlotAfterCall(evs, expected).Completed?
    ensures SlotAfterCall(evs, expected).Completed? ==>
              Await(evs, expected) == Success(SlotAfterCall(evs, expected).response)
    ensures SlotAfterCall(evs, expected).Faulted? ==>
              Await(evs, expected) == Failure(SlotAfterCall(evs, expected).error)
    ensures SlotAfterCall(evs, expected).Canceled? ==>
              Await(evs, expected).Failure? && Await(evs, expected).error.CancelsSlot()
  {
    ReleaseLosesNothing(evs, expected);
    var k := FirstSettler(evs, expected);
    FoldAtFirstSettler(evs, expected);
    AwaitAtFirstSettler(evs, expected);
    if k < |evs| {
      SettlerAgrees(evs[k], expected);
    }
  }

  /** A settling event puts the slot in the state that matches what the await reports. */
  lemma SettlerAgrees(e: Event, expected: string)
    requires Settles(e, expected)
    ensures !Observe(Pending, e, expected).Pending?
    ensures Observe(Pending, e, expected).Completed? <==> Verdict(e).Success?
    ensures Observe(Pending, e, expected).Completed? ==> Verdict(e) == Success(Observe(Pending, e, expected).response)
    ensures Observe(Pending, e, expected).Faulted? ==> Verdict(e) == Failure(Observe(Pending, e, expected).error)
    ensures Observe(Pending, e, expected).Canceled? ==> Verdict(e).Failure? && Verdict(e).error.CancelsSlot()
  {
  }

  /** There is no correlation id on the wire: a call that subscribed earlier and
      has so far seen only events that do not settle it resolves exactly like a
      call subscribing now, so two calls expecting the same response type take
      the same message. */
  lemma {:induction false} BroadcastSharesResponse(seen: seq<Event>, evs: seq<Event>, expected: string)
    requires forall j :: 0 <= j < |seen| ==> !Settles(seen[j], expected)
    ensures Await(seen + evs, expected) == Await(evs, expected)
    ensures Fold(Pending, seen + evs, expected) == Fold(Pending, evs, expected)
  {
    FoldAppend(Pending, seen, evs, expected);
    FirstSettlerIs(seen, expected, |seen|);
    FoldAtFirstSettler(seen, expected);
    var all := seen + evs;
    var k := FirstSettler(evs, expected);
    assert forall j :: 0 <= j < |evs| ==> all[|seen| + j] == evs[j];
    FirstSettlerIs(all, expected, |seen| + k);
    AwaitAtFirstSettler(all, expected);
    AwaitAtFirstSettler(evs, expected);
  }
}

=== FILE: errors.dfy ===
/** The exceptions the session layer raises, returns or passes through. */
module Errors {

  datatype Error =
    /** InvalidOperationException: the client is missing or terminated. */
    | NotConnected
    /** InvalidOperationException: the PayloadType property could not be looked up. */
    | PayloadTypeUnavailable
    /** ArgumentException: a type name that the payload-type enumeration does not parse. */
    | UnknownPayloadType(name: string)
    /** AmbiguousMatchException: more than one property answers to a name. */
    | AmbiguousProperty(name: string)
    /** ArgumentException from assigning a value of the wrong type to a property. */
    | PropertyTypeMismatch(name: string)
    | NullReference
    | Overflow
    /** TimeoutException: the per-call deadline passed before the call settled. */
    | RequestTimeout
    /** OperationCanceledException: the caller's cancellation token fired. */
    | RequestCanceled
    /** TaskCanceledException: the pending call was cancelled because the inbound stream completed. */
    | ResponseCanceled
    /** Anything raised by code outside this model (transport, conversion library, server). */
    | External(detail: string)
  {
    /** The failures after which the call's pending slot is cancelled: the
        deadline, the caller's token, or the inbound stream completing. */
    predicate CancelsSlot() {
      RequestTimeout? || RequestCanceled? || ResponseCanceled?
    }
  }
}

=== FILE: messages.dfy ===
/** A protocol message as reflection sees it: a runtime type name and a table of
    public properties, each with a setter flag, a declared type and a value. */
module Messages {
  import opened Wrappers
  import opened Errors
  import opened Values

  datatype Property = Property(writable: bool, declared: TypeTag, value: Value)

  /** `ambiguous` holds the names that more than one property answers to (a
      property hidden by another of the same name), for which a lookup throws. */
  datatype Message = Message(typeName: string, fields: map<string, Property>, ambiguous: set<string>)

  /** What Type.GetProperty(name) yields: no property (null), one, or an
      AmbiguousMatchException. */
  datatype Lookup = NotFound | Found(property: Property) | Ambiguous

  function GetProperty(m: Message, name: string): (r: Lookup)
    ensures r.Found? <==> name !in m.ambiguous && name in m.fields
    ensures r.Found? ==> r.property == m.fields[name]
    ensures r.Ambiguous? <==> name in m.ambiguous
  {
    if name in m.ambiguous then Ambiguous
    else if name in m.fields then Found(m.fields[name])
    else NotFound
  }

  /** Every property holds a value its declared type admits. */
  predicate WellTyped(m: Message) {
    forall name :: name in m.fields ==> Fits(m.fields[name].declared, m.fields[name].value)
  }

  /** The string a protobuf string property reads as: its value, or "" when unset. */
  function StringOf(m: Message, name: string): string {
    if name in m.fields && m.fields[name].value.Str? then m.fields[name].value.s else ""
  }

  /** The number a protobuf int64 property reads as: its value, or 0 when unset. */
  function Int64Of(m: Message, name: string): int64 {
    if name in m.fields && m.fields[name].value.Int64? then m.fields[name].value.l else 0
  }

  /** The generated `HasX` presence flag of an optional field. */
  predicate Has(m: Message, name: string) {
    name in m.fields && !m.fields[name].value.Null?
  }

  /** The parts of the .NET runtime and of the generated protocol code that this
      model leaves uninterpreted. */
  datatype Library = Library(
    /** Convert.ChangeType(value, type). */
    changeType: (Value, TypeTag) -> Result<Value, Error>,
    /** Convert.ToUInt32(string). */
    parseUInt32: string -> Result<uint32, Error>,
    /** Enum.Parse<ProtoOAPayloadType>(name, ignoreCase: true); None where it throws. */
    parsePayloadType: string -> Option<int32>,
    /** The enumeration member ProtoOAPayloadType.ProtoOaAccountLogoutReq. */
    accountLogoutReq: int32
  )
}

=== FILE: payload_extension.dfy ===
/** The reflection helpers the session layer relies on: reading a message's
    payload type, converting a value to a property's type, and setting a field
    by name when the message has it. */
module PayloadExtension {
  import opened Wrappers
  import opened Errors
  import opened Values
  import opened Messages

  const PayloadTypeProperty: string := "PayloadType"

  /** The outcome of SetField: whether the field was set, and the message afterwards. */
  datatype Stamp = Stamp(applied: bool, message: Message)

  /** ConvertValueToPropertyType: null stays null, an assignable value is kept,
      int and long convert into each other, and anything else is left to the
      library's Convert.ChangeType. */
  function ConvertValue(lib: Library, v: Value, target: TypeTag): (r: Result<Value, Error>)
    ensures v.Null? ==> r == Success(Null)
    ensures !v.Null? && AssignableFrom(target, TypeOf(v)) ==> r == Success(v)
    ensures v.Int32? && target == Int64Type ==> r == Success(Int64(v.i))
    ensures v.Int64? && target == Int32Type ==>
              r.Success? && r.value.Int32? && (v.l - r.value.i) % TwoTo32 == 0
    ensures v.Int64? && target == Int32Type && InInt32(v.l) ==> r == Success(Int32(v.l))
    ensures r.Failure? ==> !v.Null? && !AssignableFrom(target, TypeOf(v)) && r == lib.changeType(v, target)
    ensures !v.Null? && !AssignableFrom(target, TypeOf(v))
            && !(v.Int32? && target == Int64Type) && !(v.Int64? && target == Int32Type) ==>
              r == lib.changeType(v, target)
  {
    if v.Null? then Success(Null)
    else if AssignableFrom(target, TypeOf(v)) then Success(v)
    else if target == Int64Type && v.Int32? then Success(Int64(v.i))
    else if target == Int32Type && v.Int64? then Success(Int32(Truncate32(v.l)))
    else lib.changeType(v, target)
  }

  /** Widening an int to long and narrowing it back gives the int again. */
  lemma WidenThenNarrow(lib: Library, i: int32)
    ensures ConvertValue(lib, Int32(i), Int64Type) == Success(Int64(i))
    ensures ConvertValue(lib, Int64(i), Int32Type) == Success(Int32(i))
  {
  }

  /** Narrowing a long to int yields the one int congruent to it modulo 2^32. */
  lemma NarrowIsLow32Bits(lib: Library, l: int64, i: int32)
    requires (l - i) % TwoTo32 == 0
    ensures ConvertValue(lib, Int64(l), Int32Type) == Success(Int32(i))
  {
  }

  /** SetField: when the message has a writable property of that name, convert
      the value to the property's type and store it; when it has none, or only a
      read-only one, do nothing and say so. */
  function SetField(lib: Library, m: Message, name: string, v: Value): (r: Result<Stamp, Error>)
    ensures name in m.ambiguous ==> r == Failure(AmbiguousProperty(name))
    ensures name !in m.ambiguous && (name !in m.fields || !m.fields[name].writable) ==>
              r == Success(Stamp(false, m))
    ensures r.Success? ==> (r.value.applied <==> name in m.fields && m.fields[name].writable)
    // a writable property is set exactly when its value converts to something the property admits
    ensures name !in m.ambiguous && name in m.fields && m.fields[name].writable ==>
              (r.Success? <==> ConvertValue(lib, v, m.fields[name].declared).Success?
                               && Fits(m.fields[name].declared, ConvertValue(lib, v, m.fields[name].declared).value))
    ensures name !in m.ambiguous && name in m.fields && m.fields[name].writable
            && ConvertValue(lib, v, m.fields[name].declared).Failure? ==>
              r == Failure(ConvertValue(lib, v, m.fields[name].declared).error)
    ensures name !in m.ambiguous && name in m.fields && m.fields[name].writable
            && ConvertValue(lib, v, m.fields[name].declared).Success?
            && !Fits(m.fields[name].declared, ConvertValue(lib, v, m.fields[name].declared).value) ==>
              r == Failure(PropertyTypeMismatch(name))
    ensures r.Success? && r.value.applied ==>
              && r.value.message.typeName == m.typeName
              && r.value.message.ambiguous == m.ambiguous
              && r.value.message.fields.Keys == m.fields.Keys
              && r.value.message.fields[name] == m.fields[name].(value := r.value.message.fields[name].value)
              && ConvertValue(lib, v, m.fields[name].declared) == Success(r.value.message.fields[name].value)
              && (forall f :: f in m.fields && f != name ==> r.value.message.fields[f] == m.fields[f])
    ensures r.Success? && WellTyped(m) ==> WellTyped(r.value.message)
  {
    match GetProperty(m, name)
    case Ambiguous => Failure(AmbiguousProperty(name))
    case NotFound => Success(Stamp(false, m))
    case Found(p) =>
      if !p.writable then Success(Stamp(false, m))
      else
        match ConvertValue(lib, v, p.declared)
        case Failure(e) => Failure(e)
        case Success(c) =>
          if !Fits(p.declared, c) then Failure(PropertyTypeMismatch(name))
          else Success(Stamp(true, m.(fields := m.fields[name := p.(value := c)])))
  }

  /** Setting a field to the value it already holds, converted, changes nothing. */
  lemma SetFieldToCurrentValue(lib: Library, m: Message, name: string, v: Value)
    requires name !in m.ambiguous && name in m.fields && m.fields[name].writable
    requires ConvertValue(lib, v, m.fields[name].declared) == Success(m.fields[name].value)
    requires Fits(m.fields[name].declared, m.fields[name].value)
    ensures SetField(lib, m, name, v) == Success(Stamp(true, m))
  {
    assert m.fields[name := m.fields[name]] == m.fields;
  }

  /** Setting the same field twice with the same value is the same as setting it once. */
  lemma SetFieldIdempotent(lib: Library, m: Message, name: string, v: Value)
    requires SetField(lib, m, name, v).Success?
    ensures SetField(lib, SetField(lib, m, name, v).value.message, name, v) == SetField(lib, m, name, v)
  {
    var s := SetField(lib, m, name, v).value;
    if s.applied {
      var m' := s.message;
      assert m'.fields[name := m'.fields[name]] == m'.fields;
    }
  }

  /** Convert.ToUInt32(object): null reads as 0, a number converts exactly or
      throws OverflowException, an enumeration member converts through its
      ordinal, and text is parsed by the library. */
  function ToUInt32(lib: Library, v: Value): (r: Result<uint32, Error>)
    ensures v.Null? ==> r == Success(0)
    ensures v.Int32? ==> (r.Success? <==> v.i >= 0) && (r.Success? ==> r.value == v.i)
    ensures v.Enum? ==> (r.Success? <==> v.ordinal >= 0) && (r.Success? ==> r.value == v.ordinal)
    ensures v.Int64? ==> (r.Success? <==> 0 <= v.l < TwoTo32) && (r.Success? ==> r.value == v.l)
    ensures v.UInt32? ==> r == Success(v.u)
    ensures v.Bool? ==> r == Success(if v.b then 1 else 0)
    ensures r.Failure? && !v.Str? ==> r.error == Overflow
    ensures v.Str? ==> r == lib.parseUInt32(v.s)
  {
    match v
    case Null => Success(0)
    case Int32(i) => if i >= 0 then Success(i) else Failure(Overflow)
    case Enum(_, o) => if o >= 0 then Success(o) else Failure(Overflow)
    case Int64(l) => if 0 <= l < TwoTo32 then Success(l) else Failure(Overflow)
    case UInt32(u) => Success(u)
    case Bool(b) => Success(if b then 1 else 0)
    case Str(s) => lib.parseUInt32(s)
  }

  /** GetPayloadType: the message's PayloadType property as an unsigned number;
      an ambiguous lookup is reported as InvalidOperationException, and a
      message without the property fails on the null property. */
  function GetPayloadType(lib: Library, m: Message): (r: Result<uint32, Error>)
    ensures PayloadTypeProperty in m.ambiguous ==> r == Failure(PayloadTypeUnavailable)
    ensures PayloadTypeProperty !in m.ambiguous && PayloadTypeProperty !in m.fields ==> r == Failure(NullReference)
    ensures PayloadTypeProperty !in m.ambiguous && PayloadTypeProperty in m.fields ==>
              r == ToUInt32(lib, m.fields[PayloadTypeProperty].value)
  {
    match GetProperty(m, PayloadTypeProperty)
    case Ambiguous => Failure(PayloadTypeUnavailable)
    case NotFound => Failure(NullReference)
    case Found(p) => ToUInt32(lib, p.value)
  }

  /** Stamping a payload-type member onto a message with a writable enum-typed
      PayloadType property, then reading the payload type back, returns the
      member's ordinal. */
  lemma PayloadTypeRoundTrip(lib: Library, m: Message, enumName: string, ordinal: int32)
    requires ordinal >= 0
    requires PayloadTypeProperty !in m.ambiguous && PayloadTypeProperty in m.fields
    requires m.fields[PayloadTypeProperty] == Property(true, EnumType(enumName), m.fields[PayloadTypeProperty].value)
    ensures SetField(lib, m, PayloadTypeProperty, Enum(enumName, ordinal)).Success?
    ensures GetPayloadType(lib, SetField(lib, m, PayloadTypeProperty, Enum(enumName, ordinal)).value.message)
            == Success(ordinal)
  {
  }
}

=== FILE: protocol.dfy ===
/** The protocol messages the session layer builds and reads: their runtime
    type names and the properties it touches. Only those properties are listed;
    the generated classes carry more. */
module Protocol {
  import opened Values
  import opened Messages

  const HeartbeatEvent: string := "ProtoHeartbeatEvent"
  const ApplicationAuthReq: string := "ProtoOAApplicationAuthReq"
  const ApplicationAuthRes: string := "ProtoOAApplicationAuthRes"
  const AccountAuthReq: string := "ProtoOAAccountAuthReq"
  const AccountAuthRes: string := "ProtoOAAccountAuthRes"
  const RefreshTokenReq: string := "ProtoOARefreshTokenReq"
  const RefreshTokenRes: string := "ProtoOARefreshTokenRes"
  const AccountLogoutReq: string := "ProtoOAAccountLogoutReq"
  const PayloadTypeEnum: string := "ProtoOAPayloadType"

  /** The field the session stamps its account id onto. */
  const AccountIdField: string := "CtidTraderAccountId"

  function Writable(declared: TypeTag, v: Value): Property {
    Property(true, declared, v)
  }

  function NewApplicationAuthReq(clientId: string, clientSecret: string): (m: Message)
    ensures m.typeName == ApplicationAuthReq && AccountIdField !in m.fields && WellTyped(m)
    ensures StringOf(m, "ClientId") == clientId && StringOf(m, "ClientSecret") == clientSecret
  {
    Message(ApplicationAuthReq,
            map["ClientId" := Writable(StringType, Str(clientId)),
                "ClientSecret" := Writable(StringType, Str(clientSecret))],
            {})
  }

  function NewAccountAuthReq(accountId: int64, accessToken: string): (m: Message)
    ensures m.typeName == AccountAuthReq && WellTyped(m)
    ensures AccountIdField in m.fields && m.fields[AccountIdField] == Writable(Int64Type, Int64(accountId))
    ensures Int64Of(m, AccountIdField) == accountId && StringOf(m, "AccessToken") == accessToken
  {
    Message(AccountAuthReq,
            map[AccountIdField := Writable(Int64Type, Int64(accountId)),
                "AccessToken" := Writable(StringType, Str(accessToken))],
            {})
  }

  function NewRefreshTokenReq(refreshToken: string): (m: Message)
    ensures m.typeName == RefreshTokenReq && AccountIdField !in m.fields && WellTyped(m)
    ensures StringOf(m, "RefreshToken") == refreshToken
  {
    Message(RefreshTokenReq, map["RefreshToken" := Writable(StringType, Str(refreshToken))], {})
  }

  /** The logout request is built with its payload type set and its account
      id left unset. */
  function NewAccountLogoutReq(lib: Library): (m: Message)
    ensures m.typeName == AccountLogoutReq && WellTyped(m)
    ensures AccountIdField in m.fields && !Has(m, AccountIdField)
    ensures "PayloadType" in m.fields && m.fields["PayloadType"].value == Enum(PayloadTypeEnum, lib.accountLogoutReq)
  {
    Message(AccountLogoutReq,
            map["PayloadType" := Writable(EnumType(PayloadTypeEnum), Enum(PayloadTypeEnum, lib.accountLogoutReq)),
                AccountIdField := Writable(Int64Type, Null)],
            {})
  }
}

=== FILE: transport.dfy ===
/** The transport client, reduced to what the session layer can observe of it:
    whether it exists and whether it is terminated. Each operation returns the
    trace of what it did to the transport (connects, subscriptions, written
    frames, releases, disposal), so that a sequence of operations did the
    concatenation of their traces. */
module Transport {
  import opened Wrappers
  import opened Errors
  import opened Values
  import opened Messages

  /** A written message and the payload type it was sent under; None when the
      transport derives the payload type itself. */
  datatype Frame = Frame(message: Message, payloadType: Option<int32>)

  datatype Wire =
    | Connected
    | Subscribed(responseType: string)
    | Written(frame: Frame)
    | Released
    | Disposed

  /** Absent is the null client reference. */
  datatype Client = Absent | Present(terminated: bool)

  /** The result of a session operation and the trace it left on the transport. */
  datatype Step<+T> = Step(value: T, trace: seq<Wire>)

  /** The condition SendAsync checks first: a client that exists and is not terminated. */
  predicate Usable(c: Client) {
    c.Present? && !c.terminated
  }

  /** The frames written, in order. */
  function Sent(trace: seq<Wire>): (r: seq<Frame>)
    ensures |r| <= |trace|
  {
    if |trace| == 0 then []
    else (if trace[0].Written? then [trace[0].frame] else []) + Sent(trace[1..])
  }

  lemma {:induction false} SentAppend(a: seq<Wire>, b: seq<Wire>)
    ensures Sent(a + b) == Sent(a) + Sent(b)
    decreases |a|
  {
    if |a| == 0 {
      assert a + b == b;
    } else {
      var head := if a[0].Written? then [a[0].frame] else [];
      assert (a + b)[0] == a[0];
      assert (a + b)[1..] == a[1..] + b;
      SentAppend(a[1..], b);
      calc {
        Sent(a + b);
        head + Sent(a[1..] + b);
        head + (Sent(a[1..]) + Sent(b));
        (head + Sent(a[1..])) + Sent(b);
      }
    }
  }

  /** OpenClient.Connect: a null client throws on the call; otherwise the
      environment decides whether connecting fails. */
  function Connect(c: Client, failure: Option<Error>): (r: Step<Option<Error>>)
    ensures Sent(r.trace) == []
    ensures c.Absent? ==> r.value == Some(NullReference)
    ensures c.Present? ==> r.value == failure
  {
    if c.Absent? then Step(Some(NullReference), [])
    else if failure.Some? then Step(failure, [])
    else Step(None, [Connected])
  }
}

=== FILE: values.dfy ===
/** The runtime values that flow through reflection-based field access: the
    integer widths the protocol uses for identifiers, strings, booleans and
    enumeration members, each tagged with its runtime type. */
module Values {

  const TwoTo31: int := 0x8000_0000
  const TwoTo32: int := 0x1_0000_0000
  const TwoTo63: int := 0x8000_0000_0000_0000

  type int32 = x: int | -TwoTo31 <= x < TwoTo31
  type int64 = x: int | -TwoTo63 <= x < TwoTo63
  type uint32 = x: int | 0 <= x < TwoTo32

  /** A runtime type, as far as property assignment can tell types apart. */
  datatype TypeTag =
    | Int32Type
    | Int64Type
    | UInt32Type
    | BoolType
    | StringType
    | EnumType(enumName: string)
    /** System.Object: every non-null value is assignable to it. */
    | ObjectType

  /** A boxed value as seen by reflection; Null is the null reference. */
  datatype Value =
    | Null
    | Int32(i: int32)
    | Int64(l: int64)
    | UInt32(u: uint32)
    | Bool(b: bool)
    | Str(s: string)
    | Enum(enumName: string, ordinal: int32)

  function TypeOf(v: Value): TypeTag
    requires !v.Null?
  {
    match v
    case Int32(_) => Int32Type
    case Int64(_) => Int64Type
    case UInt32(_) => UInt32Type
    case Bool(_) => BoolType
    case Str(_) => StringType
    case Enum(name, _) => EnumType(name)
  }

  /** Type.IsAssignableFrom over these types: identity, or the target is object.
      Reflection applies no implicit numeric widening. */
  predicate AssignableFrom(target: TypeTag, source: TypeTag) {
    target == source || target == ObjectType
  }

  /** A value a property of the declared type can hold (null is let through). */
  predicate Fits(declared: TypeTag, v: Value) {
    v.Null? || AssignableFrom(declared, TypeOf(v))
  }

  predicate InInt32(x: int) {
    -TwoTo31 <= x < TwoTo31
  }

  /** The unchecked narrowing `(int)x` of C#: keep the low 32 bits and read
      them as a two's-complement number. */
  function Truncate32(x: int64): (r: int32)
    ensures (x - r) % TwoTo32 == 0
    ensures InInt32(x) ==> r == x
  {
    var low := x % TwoTo32;
    if low >= TwoTo31 then low - TwoTo32 else low
  }

  /** Truncation is the only 32-bit value congruent to its input modulo 2^32. */
  lemma Truncate32Unique(x: int64, y: int32)
    requires (x - y) % TwoTo32 == 0
    ensures y == Truncate32(x)
  {
  }
}

=== FILE: wrappers.dfy ===
/** Wrappers used across the model: an optional value and a value-or-exception
    result. */
module Wrappers {

  datatype Option<+T> = None | Some(value: T)

  /** The outcome of a .NET call that either returns a value or throws. */
  datatype Result<+T, +E> = Success(value: T) | Failure(error: E)
}
